=== FILE: README.md ===
# CJSCV2 metadata server: per-token metadata assembly, in Dafny

This project models the core of the CryptoJunkieSocialClub V2 metadata server. That core is the code that turns four on-chain view calls into the marketplace metadata document for one NFT:

- the animation status, rarity, boost tier and token-bound account (TBA) reads;
- the formatting of the 18-decimal token balance;
- the assembly of the document (name, description, image, optional `animation_url`, attribute list, background colour);
- the collection-level document;
- the request handling of the long-running Express server: token-ID validation, the batch endpoint, the animation-progress report, and first-match routing.

The repository holds two copies of this logic: `lib/blockchain.js`, used by the per-route serverless handlers, and `index.js`, the long-running server. One model covers both. The configuration is a parameter, and the two copies are the same functions applied to `LibraryConfig(env)` and `ServerConfig(env)`.

Modules:

- `Options` (options.dfy): `Option`, standing for JavaScript `null`/`undefined`.
- `Decimal` (decimal.dfy): digit values in radixes up to 36, and the canonical decimal rendering `NatToString` with its round trips.
- `Js` (js.dfy): the pieces of JavaScript the code relies on:
  - truthiness and `||` on optional strings;
  - the global `parseInt` without a radix, as section 19.2.5 of ECMA-262 defines it (white space, sign, `0x` prefix, longest digit run, NaN);
  - the string form of an integral Number;
  - `split` on one character.
- `Configuration` (config.dfy): the environment variables, and the resolved constants of each copy.
- `ChainReader` (chain.dfy): each view call is an input, `None` when the call throws. Each read collapses to its fixed fallback.
- `MetadataBuilder` (metadata.dfy): `formatBalance`, the rarity name, `buildMetadata`, `buildContractMetadata`, and the lemmas that read the document back.
- `Server` (server.dfy): the `index.js` handlers, the route table in registration order, and Express's first-match dispatch.

## Model

| member | source | states |
|---|---|---|
| Decimal.NatToString | lib/blockchain.js:124 | the rendering of a whole number is canonical: decimal digits only, never empty, and a leading zero only for zero itself |
| Decimal.ValueOfNatToString | lib/blockchain.js:124 | reading a rendering back as decimal digits gives the number it came from |
| Decimal.NatToStringOfValue | lib/blockchain.js:124 | every canonical decimal string is the rendering of its own value, so the rendering is the unique canonical string for a number |
| Js.TrimStart | index.js:226 | parseInt's white-space skip keeps a suffix, drops only white space, and leaves no white space in front |
| Js.DigitPrefixLength | index.js:226 | the digit run parseInt reads is the longest prefix of digits of the radix |
| Js.ParseDigits | index.js:226 | the last step of parseInt gives a number exactly when the text starts with a digit of the radix, and a negative number only after a '-' |
| Js.ParseIntShape | index.js:226 | after the white space, parseInt gives a number only for text that starts with a sign or a decimal digit, a negative number only after '-', and always a non-negative number after a decimal digit that does not open "0x" |
| Js.ParseIntOfDecimalPrefix | index.js:226-228 | parseInt reads a decimal number back and ignores whatever follows it, so "42abc" and "42x" are 42; only after a lone "0" does an 'x' open a hexadecimal prefix |
| Js.ParseIntOfHex | index.js:226-228 | after a "0x" prefix, parseInt reads hexadecimal digits up to the first non-digit |
| Js.ParseIntOfNonNumeric | index.js:226-228 | a parameter that starts with neither white space, a sign nor a digit parses to NaN |
| Js.ParseIntSkipsWhiteSpace | index.js:226 | leading white space does not change the parsed token id |
| Js.NumberRoundTrip | index.js:192-195 | parseInt inverts the string form of every Number the handlers put into a document |
| Js.ParseIntOfNegative | index.js:192-195 | '-' followed by the rendering of a positive number reads back as the negative number |
| Js.Split | index.js:246 | `ids.split(",")` has one more piece than commas, no piece contains a comma, and joining the pieces gives the query back |
| Configuration.LibraryConfig | lib/blockchain.js:5-17 | the library copy treats the staking manager and the NFT contract as configured exactly when their variables are truthy; the overlay, the static image base and the external URL each come from the environment when set and fall back to the library's defaults otherwise; the pre-rendered image base is present exactly when ANIMATED_IMAGE_IPFS is truthy, and is then that value |
| Configuration.ServerConfig | index.js:12-26 | the server copy treats the staking manager and the NFT contract as configured exactly when their variables are truthy; the overlay and the static image base come from the environment when set and fall back to the server's own defaults otherwise; the pre-rendered image base is present exactly when ANIMATED_IMAGE_IPFS is truthy, and is then that value; the external URL is fixed |
| Configuration.CopiesAgreeOnlyOnDefaults | index.js:17-26 | the two copies run with the same constants exactly when both image variables are set and the external URL is left at its default |
| ChainReader.Collapse | lib/blockchain.js:63-120 | a read yields either its fallback or, for a configured contract, exactly what the call returned |
| ChainReader.AnimationData | lib/blockchain.js:63-76 | an unconfigured staking manager or a throwing call gives {false, 0, 50000·10^18}; otherwise the on-chain triple is passed on unchanged |
| ChainReader.Rarity | lib/blockchain.js:79-91 | rarity index 0 unless the NFT contract is configured and answers |
| ChainReader.BoostTier | lib/blockchain.js:94-105 | boost tier 0 unless the staking manager is configured and answers |
| ChainReader.TbaAddress | lib/blockchain.js:108-120 | null exactly for an unconfigured manager, a throwing call or the zero address; any other address is passed on unchanged |
| ChainReader.FailedReadsLikeUnconfigured | index.js:63-116 | calls that all throw give the same token data as unconfigured contracts: the fallback animation, rarity 0, tier 0, no account |
| MetadataBuilder.FormatBalance | lib/blockchain.js:123-125 | the formatted balance is canonical decimal and names the whole number of tokens, with the fraction cut off and never rounded |
| MetadataBuilder.FormatBalanceExamples | lib/blockchain.js:123-125 | 1999999999999999999 wei shows as "1", 0 as "0", and the fallback threshold as "50000" |
| MetadataBuilder.FormatBalanceWholeTokens | lib/blockchain.js:123-125 | two amounts format alike exactly when they hold the same number of whole tokens |
| MetadataBuilder.RarityName | lib/blockchain.js:137 | the table lookup with "Common" as its falsy fallback is always one of the four table entries: the lookup past the table is undefined and falls back to "Common", and no entry is empty, so indices 0..3 keep their own entry |
| MetadataBuilder.Assemble | lib/blockchain.js:136-209 | name and external URL carry the token id; description suffix and gold background exactly when animated; animation_url only when animated; pre-rendered gif as both image and animation_url when that base is set, otherwise the static jpg (with the overlay as animation_url when animated); 5 attributes in trait order plus a sixth exactly when there is a token-bound account, with display_type "number" on the balance and on no other attribute |
| MetadataBuilder.BuildMetadata | lib/blockchain.js:128-209 | the document of a token carries its collapsed reads: gold background exactly when the collapsed animation flag is set, the rarity name of the collapsed rarity, the collapsed boost tier, the formatted collapsed balance, and an account attribute exactly when the collapsed account address is truthy |
| MetadataBuilder.AnimatedImageFromEnvironment | lib/blockchain.js:11-12 | for an animated token in either copy, a truthy ANIMATED_IMAGE_IPFS makes its gif both image and animation_url; otherwise the image is the static jpg and animation_url is the overlay, the environment's when ANIMATION_OVERLAY_IPFS is truthy |
| MetadataBuilder.BalanceAttributeReadsBack | lib/blockchain.js:167-171 | parseInt of the "TBA Balance" value gives the balance in whole tokens: the " ATH" suffix ends the digits |
| MetadataBuilder.AnimationSignalsAgree | lib/blockchain.js:147-207 | for a configuration built from an environment, animation_url, the "Powered Up" status, the gold background and the description suffix are each present exactly when the token is animated |
| MetadataBuilder.TraitsReadBack | lib/blockchain.js:161-192 | looking up each trait in the document finds the rarity name, the formatted balance, the boost tier, "Powered Up ⚡" or "Standard" by the animation flag, and the threshold; the account trait is found exactly when there is a token-bound account |
| MetadataBuilder.AttributeListReadBack | lib/blockchain.js:161-192 | the lookup of each trait type in the attribute list finds the value placed at that trait's position |
| MetadataBuilder.TraitNamesDistinct | lib/blockchain.js:161-192 | the six `trait_type` strings are pairwise different: two traits show the same string exactly when they are the same trait |
| MetadataBuilder.NamedLookupAgrees | lib/blockchain.js:161-192 | looking an attribute up by its `trait_type` string, as a marketplace does on the JSON, finds the same value as the lookup by trait |
| MetadataBuilder.TraitValueAppend | lib/blockchain.js:186-192 | appending the account attribute cannot hide any of the five traits before it |
| MetadataBuilder.TokenIdReadsBack | lib/blockchain.js:194-198 | the token id is recovered by parseInt from the text after " #" in the name and after "/nft/" in the external URL |
| MetadataBuilder.UnconfiguredStakingDefaults | lib/blockchain.js:128-202 | with no staking manager, every token shows standard status, "0 ATH" of "50000 ATH", tier 0, five attributes, the static image and no animation_url, whatever the chain holds |
| MetadataBuilder.BuildContractMetadata | lib/blockchain.js:213-222 | the collection document always carries 500 basis points, pays the configured recipient or else the zero address, and uses the collection image under the static base |
| Server.BigIntDiv | index.js:281 | BigInt division truncates toward zero: the quotient's magnitude is the floor of the magnitudes' ratio, and its sign follows the operands' signs |
| Server.Progress | index.js:281 | progress is the whole percentage of the threshold reached, rounded down, and is 100 or more exactly when the balance has reached the threshold |
| Server.TokenMetadataHandler | index.js:224-241 | 400 exactly when parseInt of the parameter is not a number in 1..500; otherwise 200 with the buildMetadata document of the parsed number and its chain reads, named after that number; never 500 |
| Server.ParseIds | index.js:246 | the batch query yields one token id per comma-separated piece, the i-th id being parseInt of the i-th piece |
| Server.BatchHandler | index.js:244-262 | 400 with the batch-size message for a missing ids query or more than 50 ids; 500 with the metadata-failure message for an array or object query; otherwise one document per id, in request order, built from the id as parsed |
| Server.AnimationHandler | index.js:265-287 | 400 exactly for an invalid id; 500 exactly when the collapsed threshold is zero; otherwise the token id, the flag, both formatted amounts and the truncated progress |
| Server.FirstMatch | index.js:212-299 | the route chosen is the first one in registration order whose pattern matches the path |
| Server.Dispatch | index.js:212-299 | a request is answered with status 404 exactly when no route of the table matches its path |
| Server.RoutedTo | index.js:212-299 | when route k is the first whose pattern matches, its handler answers the request |
| Server.NumericPrefixAccepted | index.js:226-230 | "42abc" is read as 42 and accepted |
| Server.NonNumericRejected | index.js:226-230 | "abc" and "batch" parse to NaN, and "abc" is rejected |
| Server.OutOfRangeRejected | index.js:228 | "501" parses to 501 and is rejected |
| Server.HexTokenIdAccepted | index.js:226-228 | "0x1f4" parses as hexadecimal 500 and is accepted |
| Server.InvalidIdsReadNothing | index.js:226-271 | for an invalid id, both token routes give the same 400 whatever the chain holds |
| Server.AnimationFallbackReport | index.js:273-282 | with no staking manager, every valid token reports not animated, balance "0", threshold "50000", progress 0 |
| Server.BatchIdsNotRangeChecked | index.js:246-254 | batch ids are not range-checked: "abc" gives one document named "#NaN", and "0" one named "#0" |
| Server.SingleIdBatch | index.js:246-254 | a query without a comma is a batch of one: the document of its parsed id, with its chain reads |
| Server.TokenPathRouted | index.js:224-232 | as registered, every /metadata/<param> path reaches the token handler with that parameter |
| Server.TokenPathRoutedCorrected | index.js:224-262 | with the batch route registered first, every /metadata/<param> path other than /metadata/batch still reaches the token handler with that parameter |
| Server.BatchRouteShadowed | index.js:224-244 | as registered, GET /metadata/batch is answered by the token handler with 400, whatever the query |
| Server.CorrectedBatchRouteReached | index.js:244-262 | with the batch route registered first, GET /metadata/batch reaches the batch handler |
| Server.CorrectionChangesOnlyBatchPath | index.js:212-299 | moving the batch route changes the answer for no path other than /metadata/batch |
| Server.CollectionRouteIsStatic | index.js:290-299 | /contract answers the collection document whatever the chain holds and whatever the query carries |

## Left out

- Provider and contract construction, the lazy singletons and the RPC URL. These are network and library calls; each view call is an `Option` input instead, and the call's throw is `None`.
- Server.Chain: the chain is any function from a Number to the four answers, even for ids no `uint256` can hold (NaN, negatives, magnitudes of 2^53 and above). In JavaScript, ethers rejects such an argument before any call, and the read's catch turns that into the fallback, so a batch document for "abc" or "-5" always carries the fallback reads. The model leaves those answers unconstrained. Every property stated here holds for all chains, so it covers the real behaviour as one case.
- Concurrency. `Promise.all` runs independent reads, so they are modelled as one record of answers.
- Logging, `Cache-Control` and other headers, CORS, `dotenv`, `app.listen`.
- Non-GET methods, Express's case-insensitive and trailing-slash path matching, and URL decoding. A request is already a GET with its decoded path segments.
- The per-route serverless handlers under `api/`, one line per difference from the server:
  - `api/metadata/[tokenId].js` and `api/animation/[tokenId].js` run the library copy behind the same parseInt range check. They read the id from `req.query.tokenId`, word the 400 message differently, set other cache headers, and put the error's message in the 500 body.
  - `api/contract.js` takes no id and calls the library's `buildContractMetadata` directly.
  - Those three handlers answer every method other than GET with 405. `api/index.js` checks no method and answers every request with 200.
  - `api/index.js` does not use the library. Its health document is larger than the server's: service name, version, endpoint list, and "not configured" for unset addresses.
  - No handler under `api/` serves batches.
  - The allowlist proof lookup (`api/proof/[address].js`) is not part of this model, and neither is its data file. It uses no part of the library.
- The health document of `/` is modelled only as the two configured addresses (index.js:212-221).
- Js.ToString: integers at or above 10^21 print in exponent form in JavaScript ("1e+21"), and integers above 2^53 lose precision as floats. The model prints every integer exactly. No single-token decision changes, because the range check rejects such ids. The batch handler does not range-check, so for batch ids of magnitude 2^53 and above the model's document name and external URL differ from JavaScript's: `?ids=9007199254740993` is named "#9007199254740992" in JavaScript and "#9007199254740993" in the model.
- Js.ParseInt: the result is exact rather than rounded to a double. For token ids this only touches values the range check rejects; for batch ids of magnitude 2^53 and above it changes the document name and external URL, as in the previous line. parseInt("-0") is the double -0 in JavaScript and 0 in the model, which no output can tell apart, since -0 prints as "0".
- Server.Progress: `Number(...)` of the BigInt quotient is taken as exact. The float conversion of very large quotients is not modelled. The same holds for `Number(boostTier)`.
- ChainReader.Rarity: the `uint8` bound of the on-chain rarity is not imposed. Every natural number is handled, and indices past 3 give "Common".
- The range check applies to parseInt's result, not to the text of the parameter. So "42abc", "4.5", " 7" and "0x1f4" are accepted as token ids. Batch ids are not range-checked at all.

## Findings

| source | as written | input that shows it | evidently intended | confidence | as-written member | corrected member |
|---|---|---|---|---|---|---|
| index.js:224-262 | `/metadata/:tokenId` is registered before `/metadata/batch`, so Express hands every batch request to the single-token handler | GET /metadata/batch?ids=1,2 answers 400 "Invalid token ID. Must be 1-500." | the batch handler answers it with two documents | high (routing order is deterministic); not executed | Server.BatchRouteShadowed | Server.CorrectedBatchRouteReached |

=== FILE: chain.dfy ===
/** The four chain reads the metadata needs, each isolated behind a fixed
    fallback. A read is an input: what the view call would answer, or None
    when the call throws. A read of an unconfigured contract is never issued
    and yields the fallback directly. */
module ChainReader {
  import opened Options
  import opened Configuration

  /** One ether in wei: the scale of the 18-decimal fixed-point amounts. */
  const Wei: nat := 1_000_000_000_000_000_000

  /** `ethers.ZeroAddress`, the sentinel for "no token-bound account". */
  const ZeroAddress: string := "0x0000000000000000000000000000000000000000"

  /** getAnimationStatus(tokenId): the power-up flag, the token-bound
      account's balance and the balance needed to power up, in wei. */
  datatype AnimationStatus = AnimationStatus(isAnimated: bool, balance: nat, threshold: nat)

  /** The animation status reported whenever the real one cannot be read:
      not powered up, nothing held, a threshold of 50000 tokens. */
  const FallbackAnimation: AnimationStatus := AnimationStatus(false, 0, 50000 * Wei)

  /** What each view call answers for one token; None when it throws. */
  datatype ChainReads = ChainReads(
    animationStatus: Option<AnimationStatus>,  // staking manager: getAnimationStatus
    rarity: Option<nat>,                        // NFT contract: getRarity (uint8)
    boostTier: Option<nat>,                     // staking manager: getTBABoostTier
    tokenBoundAccount: Option<string>)          // staking manager: tokenBoundAccounts

  /** The four values after every read has been collapsed to a plain value. */
  datatype TokenData = TokenData(
    animation: AnimationStatus,
    rarity: nat,
    boostTier: nat,
    tokenBoundAccount: Option<string>)

  /** A read that returns its value when the contract is configured and the
      call succeeds, and the fallback otherwise. */
  function Collapse<T>(configured: bool, call: Option<T>, fallback: T): (v: T)
    ensures v == fallback || (configured && call == Some(v))
    ensures configured && call.Some? ==> v == call.value
  {
    if configured then call.GetOr(fallback) else fallback
  }

  /** getAnimationData: the fallback triple for an unconfigured staking
      manager or a failed call, the on-chain triple unchanged otherwise. */
  function AnimationData(cfg: Config, call: Option<AnimationStatus>): (a: AnimationStatus)
    ensures !cfg.StakingConfigured() || call.None? ==> a == FallbackAnimation
    ensures cfg.StakingConfigured() && call.Some? ==> a == call.value
  {
    Collapse(cfg.StakingConfigured(), call, FallbackAnimation)
  }

  /** getRarity: index 0 (Common) unless the NFT contract answers. */
  function Rarity(cfg: Config, call: Option<nat>): (r: nat)
    ensures !cfg.NftConfigured() || call.None? ==> r == 0
    ensures cfg.NftConfigured() && call.Some? ==> r == call.value
  {
    Collapse(cfg.NftConfigured(), call, 0)
  }

  /** getBoostTier: tier 0 unless the staking manager answers. */
  function BoostTier(cfg: Config, call: Option<nat>): (t: nat)
    ensures !cfg.StakingConfigured() || call.None? ==> t == 0
    ensures cfg.StakingConfigured() && call.Some? ==> t == call.value
  {
    Collapse(cfg.StakingConfigured(), call, 0)
  }

  /** getTBAAddress: null for an unconfigured staking manager, a failed
      call or the zero address; any other address unchanged. */
  function TbaAddress(cfg: Config, call: Option<string>): (a: Option<string>)
    ensures a.None? <==> !cfg.StakingConfigured() || call.None? || call.value == ZeroAddress
    ensures a.Some? ==> a == call
  {
    var address := Collapse(cfg.StakingConfigured(), call, ZeroAddress);
    if address == ZeroAddress then None else Some(address)
  }

  /** The four reads of one metadata request, each collapsed on its own. */
  function ReadToken(cfg: Config, answers: ChainReads): TokenData {
    TokenData(
      AnimationData(cfg, answers.animationStatus),
      Rarity(cfg, answers.rarity),
      BoostTier(cfg, answers.boostTier),
      TbaAddress(cfg, answers.tokenBoundAccount))
  }

  /** A call that throws is indistinguishable from a contract that is not
      configured: both give the data of a token nobody has staked into. */
  lemma FailedReadsLikeUnconfigured(cfg: Config, unconfigured: Config, answers: ChainReads)
    requires !unconfigured.StakingConfigured() && !unconfigured.NftConfigured()
    ensures ReadToken(cfg, ChainReads(None, None, None, None)) == ReadToken(unconfigured, answers)
    ensures ReadToken(unconfigured, answers) == TokenData(FallbackAnimation, 0, 0, None)
  {
  }
}

=== FILE: config.dfy ===
/** Configuration of the metadata server. Both copies of the logic (the
    library used by the per-route handlers and the long-running server) read
    the same environment variables once at start-up; they differ only in
    their default image locations and in whether the external URL can be
    overridden. The chain endpoint URL is left out: reads are inputs here. */
module Configuration {
  import opened Options
  import Js

  /** The environment variables the core reads; None when unset. */
  datatype Env = Env(
    stakingManagerAddress: Option<string>,  // STAKING_MANAGER_ADDRESS
    nftContractAddress: Option<string>,     // NFT_CONTRACT_ADDRESS
    staticImageIpfs: Option<string>,        // STATIC_IMAGE_IPFS
    animationOverlayIpfs: Option<string>,   // ANIMATION_OVERLAY_IPFS
    animatedImageIpfs: Option<string>,      // ANIMATED_IMAGE_IPFS
    externalUrl: Option<string>,            // EXTERNAL_URL
    royaltyRecipient: Option<string>)       // ROYALTY_RECIPIENT

  /** The resolved constants one copy of the logic runs with. */
  datatype Config = Config(
    stakingManager: Option<string>,
    nftContract: Option<string>,
    staticImageBase: string,
    animationOverlay: string,
    animatedImageBase: Option<string>,
    collectionName: string,
    collectionDescription: string,
    externalUrl: string,
    royaltyRecipient: Option<string>)
  {
    /** The staking manager handle exists (the address is truthy). */
    predicate StakingConfigured() {
      Js.Truthy(stakingManager)
    }

    /** The NFT contract handle exists (the address is truthy). */
    predicate NftConfigured() {
      Js.Truthy(nftContract)
    }

    /** What every configuration built from an environment satisfies: the
        overlay is a non-empty URL and an animated-image base, when present,
        is non-empty. */
    predicate Resolved() {
      animationOverlay != "" && (animatedImageBase.Some? ==> animatedImageBase.value != "")
    }
  }

  const CollectionName: string := "CryptoJunkieSocialClub V2"
  const CollectionDescription: string :=
    "500 unique CryptoJunkies with Token Bound Accounts. Stake to earn $ATH tokens. "
    + "NFTs with 50k+ $ATH in their wallet display animated artwork!"
  const DefaultExternalUrl: string := "https://cryptojunkies.xyz"

  const LibraryStaticImage: string := "ipfs://QmUBoa8gPCN3NhWj9txpCF5FwToUq1NMN3YZ7MBwkjzQwQ/"
  const LibraryOverlay: string := "ipfs://bafybeidngluwswiusroipprouoslpam2gtxcbryj54ljk7br3nsrrup2ke"
  const ServerStaticImage: string := "ipfs://QmSTATIC/"
  const ServerOverlay: string := "ipfs://QmOVERLAY/powered-up-overlay.gif"

  /** `process.env.X || null`. */
  function PresentOrNull(s: Option<string>): Option<string> {
    if Js.Truthy(s) then s else None
  }

  /** The library copy's configuration: every image location and the
      external URL can be overridden. */
  function LibraryConfig(env: Env): (c: Config)
    ensures c.Resolved()
    ensures c.StakingConfigured() <==> Js.Truthy(env.stakingManagerAddress)
    ensures c.NftConfigured() <==> Js.Truthy(env.nftContractAddress)
    ensures Js.Truthy(env.animationOverlayIpfs) ==> c.animationOverlay == env.animationOverlayIpfs.value
    ensures !Js.Truthy(env.animationOverlayIpfs) ==> c.animationOverlay == LibraryOverlay
    ensures Js.Truthy(c.animatedImageBase) <==> Js.Truthy(env.animatedImageIpfs)
    ensures Js.Truthy(env.animatedImageIpfs) ==> c.animatedImageBase == env.animatedImageIpfs
    ensures Js.Truthy(env.externalUrl) ==> c.externalUrl == env.externalUrl.value
    ensures !Js.Truthy(env.externalUrl) ==> c.externalUrl == DefaultExternalUrl
    ensures Js.Truthy(env.staticImageIpfs) ==> c.staticImageBase == env.staticImageIpfs.value
    ensures !Js.Truthy(env.staticImageIpfs) ==> c.staticImageBase == LibraryStaticImage
  {
    Config(
      env.stakingManagerAddress, env.nftContractAddress,
      Js.OrElse(env.staticImageIpfs, LibraryStaticImage),
      Js.OrElse(env.animationOverlayIpfs, LibraryOverlay),
      PresentOrNull(env.animatedImageIpfs),
      CollectionName, CollectionDescription,
      Js.OrElse(env.externalUrl, DefaultExternalUrl),
      env.royaltyRecipient)
  }

  /** The long-running server's configuration: other image defaults, and an
      external URL that the environment cannot change. */
  function ServerConfig(env: Env): (c: Config)
    ensures c.Resolved()
    ensures c.StakingConfigured() <==> Js.Truthy(env.stakingManagerAddress)
    ensures c.NftConfigured() <==> Js.Truthy(env.nftContractAddress)
    ensures Js.Truthy(env.animationOverlayIpfs) ==> c.animationOverlay == env.animationOverlayIpfs.value
    ensures !Js.Truthy(env.animationOverlayIpfs) ==> c.animationOverlay == ServerOverlay
    ensures Js.Truthy(c.animatedImageBase) <==> Js.Truthy(env.animatedImageIpfs)
    ensures Js.Truthy(env.animatedImageIpfs) ==> c.animatedImageBase == env.animatedImageIpfs
    ensures c.externalUrl == DefaultExternalUrl
    ensures Js.Truthy(env.staticImageIpfs) ==> c.staticImageBase == env.staticImageIpfs.value
    ensures !Js.Truthy(env.staticImageIpfs) ==> c.staticImageBase == ServerStaticImage
  {
    Config(
      env.stakingManagerAddress, env.nftContractAddress,
      Js.OrElse(env.staticImageIpfs, ServerStaticImage),
      Js.OrElse(env.animationOverlayIpfs, ServerOverlay),
      PresentOrNull(env.animatedImageIpfs),
      CollectionName, CollectionDescription,
      DefaultExternalUrl,
      env.royaltyRecipient)
  }

  /** The two copies run with the same constants exactly when the
      environment overrides both image defaults and leaves the external URL
      at its default. */
  lemma CopiesAgreeOnlyOnDefaults(env: Env)
    ensures LibraryConfig(env) == ServerConfig(env) <==>
      && Js.Truthy(env.staticImageIpfs)
      && Js.Truthy(env.animationOverlayIpfs)
      && Js.OrElse(env.externalUrl, DefaultExternalUrl) == DefaultExternalUrl
  {
    if !Js.Truthy(env.staticImageIpfs) {
      assert |LibraryStaticImage| != |ServerStaticImage|;
    }
    if !Js.Truthy(env.animationOverlayIpfs) {
      assert |LibraryOverlay| != |ServerOverlay|;
    }
  }
}

=== FILE: decimal.dfy ===
/** Digit strings in a radix up to 36, and the canonical decimal rendering of
    a natural number (what `BigInt.prototype.toString()` and
    `Number.prototype.toString()` print for a non-negative integer). */
module Decimal {

  /** The digit value of a character in the sense of parseInt: '0'..'9' are
      0..9, 'a'..'z' and 'A'..'Z' are 10..35; any other character gets 36,
      which is a digit in no radix. */
  function DigitValue(c: char): (d: nat)
    ensures d <= 36
    ensures d < 10 <==> IsDecimalDigit(c)
  {
    if '0' <= c <= '9' then c as int - '0' as int
    else if 'a' <= c <= 'z' then c as int - 'a' as int + 10
    else if 'A' <= c <= 'Z' then c as int - 'A' as int + 10
    else 36
  }

  predicate IsDecimalDigit(c: char) {
    '0' <= c <= '9'
  }

  predicate IsRadixDigit(c: char, radix: nat) {
    DigitValue(c) < radix
  }

  /** The decimal digit character for a value below ten. */
  function DigitChar(d: nat): (c: char)
    requires d < 10
    ensures IsDecimalDigit(c) && DigitValue(c) == d
    ensures c == '0' <==> d == 0
  {
    ('0' as int + d) as char
  }

  /** The number a digit string denotes in the given radix, most significant
      digit first. */
  function Value(s: string, radix: nat): nat {
    if |s| == 0 then 0
    else Value(s[..|s| - 1], radix) * radix + DigitValue(s[|s| - 1])
  }

  /** Decimal digits only, at least one, and no leading zero unless the whole
      string is "0". */
  predicate IsCanonicalDecimal(s: string) {
    && |s| > 0
    && (forall i :: 0 <= i < |s| ==> IsDecimalDigit(s[i]))
    && (|s| > 1 ==> s[0] != '0')
  }

  /** The decimal rendering of n. */
  function NatToString(n: nat): (s: string)
    ensures IsCanonicalDecimal(s)
    ensures s[0] == '0' <==> n == 0
    decreases n
  {
    if n < 10 then [DigitChar(n)]
    else NatToString(n / 10) + [DigitChar(n % 10)]
  }

  /** Reading the rendering back gives the number: NatToString is injective
      and Value is its left inverse. */
  lemma {:induction false} ValueOfNatToString(n: nat)
    ensures Value(NatToString(n), 10) == n
    decreases n
  {
    var s := NatToString(n);
    if n < 10 {
      assert s[..|s| - 1] == [];
    } else {
      ValueOfNatToString(n / 10);
      assert s[..|s| - 1] == NatToString(n / 10);
    }
  }

  /** A digit string whose first digit is not zero denotes a positive number. */
  lemma {:induction false} ValuePositive(s: string)
    requires |s| > 0 && s[0] != '0'
    requires forall i :: 0 <= i < |s| ==> IsDecimalDigit(s[i])
    ensures Value(s, 10) > 0
    decreases |s|
  {
    if |s| > 1 {
      ValuePositive(s[..|s| - 1]);
    }
  }

  /** The other direction of the round trip: every canonical decimal string
      is the rendering of the number it denotes, so two canonical strings
      with the same value are equal. */
  lemma {:induction false} NatToStringOfValue(s: string)
    requires IsCanonicalDecimal(s)
    ensures NatToString(Value(s, 10)) == s
    decreases |s|
  {
    var a := s[..|s| - 1];
    var d := DigitValue(s[|s| - 1]);
    assert Value(s, 10) == Value(a, 10) * 10 + d;
    if |s| == 1 {
      assert a == [];
      assert NatToString(d) == [DigitChar(d)];
    } else {
      assert IsCanonicalDecimal(a);
      ValuePositive(a);
      NatToStringOfValue(a);
      var n := Value(s, 10);
      assert n / 10 == Value(a, 10) && n % 10 == d;
      assert DigitChar(d) == s[|s| - 1];
      assert s == a + [s[|s| - 1]];
    }
  }
}

=== FILE: js.dfy ===
/** The slice of JavaScript semantics the metadata server leans on: truthiness
    and `||` on optional strings, the global `parseInt` with no radix
    argument (section 19.2.5 of ECMA-262), the string form of an integral
    Number, and `String.prototype.split` with a one-character separator. */
module Js {
  import opened Options
  import opened Decimal

  /** A Number as it arises from parseInt: NaN or an integer. The sign of a
      negative zero is not kept; it prints and compares like zero. */
  datatype Number = NaN | Int(value: int)

  /** `if (s)` for a string that may be null or undefined: the empty string
      is falsy as well. */
  predicate Truthy(s: Option<string>) {
    s.Some? && s.value != ""
  }

  /** `a[i]` on an array of strings: undefined past the end. */
  function At(a: seq<string>, i: nat): (r: Option<string>)
    ensures r.Some? <==> i < |a|
    ensures r.Some? ==> r.value == a[i]
  {
    if i < |a| then Some(a[i]) else None
  }

  /** `s || fallback` for an optional string. */
  function OrElse(s: Option<string>, fallback: string): string {
    if Truthy(s) then s.value else fallback
  }

  /** StrWhiteSpaceChar: the WhiteSpace and LineTerminator code points that
      parseInt skips before the number. */
  predicate IsStrWhiteSpace(c: char) {
    || c == '\t' || c == '\U{000B}' || c == '\U{000C}' || c == ' '
    || c == '\U{00A0}' || c == '\U{FEFF}' || c == '\U{1680}'
    || ('\U{2000}' <= c <= '\U{200A}')
    || c == '\U{202F}' || c == '\U{205F}' || c == '\U{3000}'
    || c == '\n' || c == '\r' || c == '\U{2028}' || c == '\U{2029}'
  }

  /** Leading white space removed: the result is a suffix of s, everything
      dropped is white space, and the result does not start with any. */
  function TrimStart(s: string): (t: string)
    ensures |t| <= |s| && t == s[|s| - |t|..]
    ensures forall i :: 0 <= i < |s| - |t| ==> IsStrWhiteSpace(s[i])
    ensures t == [] || !IsStrWhiteSpace(t[0])
  {
    if |s| > 0 && IsStrWhiteSpace(s[0]) then
      var t := TrimStart(s[1..]);
      assert s[1..][|s| - 1 - |t|..] == s[|s| - |t|..];
      t
    else s
  }

  /** Length of the longest prefix of s made of digits of the radix. */
  function DigitPrefixLength(s: string, radix: nat): (n: nat)
    ensures n <= |s|
    ensures forall i :: 0 <= i < n ==> IsRadixDigit(s[i], radix)
    ensures n == |s| || !IsRadixDigit(s[n], radix)
  {
    if |s| == 0 || !IsRadixDigit(s[0], radix) then 0
    else 1 + DigitPrefixLength(s[1..], radix)
  }

  /** After white space and sign: a "0x" or "0X" prefix selects radix 16
      and is dropped, otherwise the radix is 10. */
  predicate HasHexPrefix(u: string) {
    |u| >= 2 && u[0] == '0' && (u[1] == 'x' || u[1] == 'X')
  }

  /** `parseInt(s)`: skip leading white space, take an optional sign, pick
      the radix, then read the longest run of digits of that radix; NaN when
      that run is empty. Whatever follows the run is ignored. */
  function ParseInt(s: string): Number {
    ParseTrimmed(TrimStart(s))
  }

  /** What parseInt returns, by the first character after the white space:
      a number only after a sign or a decimal digit, a negative number only
      after '-', and always a non-negative number after a decimal digit that
      does not open a "0x" prefix. */
  lemma ParseIntShape(s: string)
    ensures var r, t := ParseInt(s), TrimStart(s);
      r.Int? ==> |t| > 0 && (IsDecimalDigit(t[0]) || t[0] == '+' || t[0] == '-')
    ensures var r, t := ParseInt(s), TrimStart(s);
      r.Int? && r.value < 0 ==> |t| > 0 && t[0] == '-'
    ensures var r, t := ParseInt(s), TrimStart(s);
      |t| > 0 && IsDecimalDigit(t[0]) && !HasHexPrefix(t) ==> r.Int? && r.value >= 0
  {
  }

  /** parseInt after the white space is gone: the sign, then the rest. */
  function ParseTrimmed(t: string): (r: Number)
    ensures r.Int? ==> |t| > 0 && (IsDecimalDigit(t[0]) || t[0] == '+' || t[0] == '-')
    ensures r.Int? && r.value < 0 ==> |t| > 0 && t[0] == '-'
    ensures |t| > 0 && IsDecimalDigit(t[0]) && !HasHexPrefix(t) ==> r.Int? && r.value >= 0
  {
    var negative := |t| > 0 && t[0] == '-';
    ParseUnsigned(if |t| > 0 && (t[0] == '+' || t[0] == '-') then t[1..] else t, negative)
  }

  /** parseInt after the sign: the radix prefix, then the digits. */
  function ParseUnsigned(u: string, negative: bool): (r: Number)
    ensures r.Int? ==> |u| > 0 && IsDecimalDigit(u[0])
    ensures r.Int? && r.value < 0 ==> negative
    ensures r.Int? && !negative ==> r.value >= 0
    ensures |u| > 0 && IsDecimalDigit(u[0]) && !HasHexPrefix(u) ==> r.Int?
  {
    if HasHexPrefix(u) then ParseDigits(u[2..], 16, negative) else ParseDigits(u, 10, negative)
  }

  /** parseInt's last step: the longest run of digits, NaN when empty. */
  function ParseDigits(v: string, radix: nat, negative: bool): (r: Number)
    ensures r.Int? <==> |v| > 0 && IsRadixDigit(v[0], radix)
    ensures r.Int? && r.value < 0 ==> negative
    ensures r.Int? && !negative ==> r.value >= 0
  {
    var n := DigitPrefixLength(v, radix);
    var magnitude: int := Value(v[..n], radix);
    if n == 0 then NaN
    else if negative then Int(-magnitude)
    else Int(magnitude)
  }

  /** The digits of a run followed by a non-digit are exactly the run. */
  lemma ParseDigitsOfRun(digits: string, rest: string, radix: nat, negative: bool)
    requires |digits| > 0 && forall i :: 0 <= i < |digits| ==> IsRadixDigit(digits[i], radix)
    requires rest == [] || !IsRadixDigit(rest[0], radix)
    ensures var m: int := Value(digits, radix);
      ParseDigits(digits + rest, radix, negative) == Int(if negative then -m else m)
  {
    DigitPrefixOfConcat(digits, rest, radix);
    assert (digits + rest)[..|digits|] == digits;
  }

  /** The string a Number turns into inside a template literal. */
  function ToString(x: Number): string {
    match x
    case NaN => "NaN"
    case Int(i) => if i < 0 then "-" + NatToString(-i) else NatToString(i)
  }

  /** If every character of a is a digit of the radix and b does not start
      with one, the digit run of a + b is exactly a. */
  lemma {:induction false} DigitPrefixOfConcat(a: string, b: string, radix: nat)
    requires forall i :: 0 <= i < |a| ==> IsRadixDigit(a[i], radix)
    requires b == [] || !IsRadixDigit(b[0], radix)
    ensures DigitPrefixLength(a + b, radix) == |a|
    decreases |a|
  {
    if |a| > 0 {
      assert (a + b)[1..] == a[1..] + b;
      DigitPrefixOfConcat(a[1..], b, radix);
    } else {
      assert a + b == b;
    }
  }

  /** parseInt reads a decimal rendering back, ignoring whatever follows it
      as long as that does not continue the digits (or, after a lone "0",
      turn it into a hexadecimal prefix). So "42abc" and "42x" parse as 42. */
  lemma ParseIntOfDecimalPrefix(n: nat, rest: string)
    requires rest == [] || (!IsDecimalDigit(rest[0]) && (n == 0 ==> rest[0] != 'x' && rest[0] != 'X'))
    ensures ParseInt(NatToString(n) + rest) == Int(n)
  {
    var d := NatToString(n);
    var s := d + rest;
    ParseIntOfUnsigned(s);
    assert !HasHexPrefix(s) by {
      if n == 0 {
        assert |s| < 2 || s[1] == rest[0];
      } else {
        assert s[0] == d[0] != '0';
      }
    }
    ParseDigitsOfRun(d, rest, 10, false);
    ValueOfNatToString(n);
  }

  /** A string that starts with a digit has no white space or sign to skip. */
  lemma ParseIntOfUnsigned(s: string)
    requires |s| > 0 && IsDecimalDigit(s[0])
    ensures ParseInt(s) == ParseUnsigned(s, false)
  {
    assert !IsStrWhiteSpace(s[0]);
    assert TrimStart(s) == s;
    assert s[0] != '+' && s[0] != '-';
  }

  /** After "0x", parseInt reads hexadecimal digits up to the first
      character that is not one. */
  lemma ParseIntOfHex(digits: string, rest: string)
    requires |digits| > 0 && forall i :: 0 <= i < |digits| ==> IsRadixDigit(digits[i], 16)
    requires rest == [] || !IsRadixDigit(rest[0], 16)
    ensures ParseInt("0x" + digits + rest) == Int(Value(digits, 16))
  {
    var v := digits + rest;
    var s := "0x" + v;
    assert s == "0x" + digits + rest;
    ParseIntOfUnsigned(s);
    assert ParseUnsigned(s, false) == ParseDigits(v, 16, false) by {
      assert HasHexPrefix(s) && s[2..] == v;
    }
    ParseDigitsOfRun(digits, rest, 16, false);
  }

  /** A string whose first character is neither white space, a sign nor a
      decimal digit parses to NaN ("batch", "abc", "NaN"). */
  lemma ParseIntOfNonNumeric(s: string)
    requires |s| > 0 && !IsStrWhiteSpace(s[0]) && !IsDecimalDigit(s[0])
    requires s[0] != '+' && s[0] != '-'
    ensures ParseInt(s) == NaN
  {
    assert TrimStart(s) == s;
    assert !HasHexPrefix(s);
  }

  /** Leading white space does not change what parseInt returns. */
  lemma {:induction false} ParseIntSkipsWhiteSpace(w: string, s: string)
    requires forall i :: 0 <= i < |w| ==> IsStrWhiteSpace(w[i])
    ensures ParseInt(w + s) == ParseInt(s)
  {
    TrimStartOfWhiteSpace(w, s);
  }

  lemma {:induction false} TrimStartOfWhiteSpace(w: string, s: string)
    requires forall i :: 0 <= i < |w| ==> IsStrWhiteSpace(w[i])
    ensures TrimStart(w + s) == TrimStart(s)
    decreases |w|
  {
    if |w| > 0 {
      assert (w + s)[1..] == w[1..] + s;
      TrimStartOfWhiteSpace(w[1..], s);
    } else {
      assert w + s == s;
    }
  }

  /** parseInt inverts the string form of every Number it can produce. */
  lemma NumberRoundTrip(x: Number)
    ensures ParseInt(ToString(x)) == x
  {
    match x
    case NaN =>
      ParseIntOfNonNumeric("NaN");
    case Int(i) =>
      if i >= 0 {
        ParseIntOfDecimalPrefix(i, "");
        assert NatToString(i) + "" == NatToString(i);
      } else {
        ParseIntOfNegative(-i);
      }
  }

  /** A '-' followed by a decimal rendering reads back as the negative number. */
  lemma ParseIntOfNegative(n: nat)
    requires n > 0
    ensures var m: int := n; ParseInt("-" + NatToString(n)) == Int(-m)
  {
    var d := NatToString(n);
    ParseIntAfterMinus(d);
    assert !HasHexPrefix(d);
    assert d + "" == d;
    ParseDigitsOfRun(d, "", 10, true);
    ValueOfNatToString(n);
  }

  /** A leading '-' is not white space: it is read as the sign. */
  lemma ParseIntAfterMinus(u: string)
    ensures ParseInt("-" + u) == ParseUnsigned(u, true)
  {
    var s := "-" + u;
    assert s[0] == '-' && s[1..] == u;
    TrimStartOfSign(s);
    assert ParseTrimmed(s) == ParseUnsigned(u, true);
  }

  /** White space skipping stops at a sign. */
  lemma TrimStartOfSign(s: string)
    requires |s| > 0 && (s[0] == '-' || s[0] == '+')
    ensures TrimStart(s) == s
  {
    assert !IsStrWhiteSpace(s[0]);
  }

  /** Number of occurrences of c in s. */
  function Count(s: string, c: char): nat {
    if |s| == 0 then 0 else (if s[0] == c then 1 else 0) + Count(s[1..], c)
  }

  /** A character that does not occur is counted zero times. */
  lemma {:induction false} CountAbsent(s: string, c: char)
    requires c !in s
    ensures Count(s, c) == 0
  {
    if |s| > 0 {
      assert forall k :: 0 <= k < |s[1..]| ==> s[1..][k] == s[k + 1];
      CountAbsent(s[1..], c);
    }
  }

  /** `parts.join(sep)`. */
  function Join(parts: seq<string>, sep: char): string {
    if |parts| == 0 then ""
    else if |parts| == 1 then parts[0]
    else parts[0] + [sep] + Join(parts[1..], sep)
  }

  /** `s.split(sep)` for a one-character separator: one more piece than
      there are separators, no piece contains the separator, and joining the
      pieces back gives s. */
  function Split(s: string, sep: char): (parts: seq<string>)
    ensures |parts| == Count(s, sep) + 1
    ensures forall i :: 0 <= i < |parts| ==> sep !in parts[i]
    ensures Join(parts, sep) == s
  {
    if |s| == 0 then [""]
    else
      var rest := Split(s[1..], sep);
      if s[0] == sep then
        assert ([""] + rest)[1..] == rest;
        assert s == [sep] + s[1..];
        [""] + rest
      else
        var parts := [[s[0]] + rest[0]] + rest[1..];
        assert parts[1..] == rest[1..];
        assert s == [s[0]] + s[1..];
        assert sep !in parts[0];
        parts
  }
}

=== FILE: metadata.dfy ===
/** The per-token metadata document and the collection-level document, built
    from the configuration and the collapsed chain reads. The document
    follows the marketplace schema: name, description, image, optional
    animation_url, external_url, an ordered attribute list and a background
    colour. */
module MetadataBuilder {
  import opened Options
  import opened Decimal
  import Js
  import opened Configuration
  import opened ChainReader

  const RarityNames: seq<string> := ["Common", "Uncommon", "Rare", "Mythic"]

  const PoweredUpSuffix: string := " This Junkie is POWERED UP! \U{26A1}"
  const PoweredUpStatus: string := "Powered Up \U{26A1}"
  const StandardStatus: string := "Standard"
  const PoweredUpBackground: string := "FFD700"
  const StandardBackground: string := "1a1a2e"
  const TokenSuffix: string := " ATH"

  /** The trait types of the attribute list. */
  datatype Trait =
    | RarityTrait | BalanceTrait | BoostTierTrait | StatusTrait | ThresholdTrait | AccountTrait
  {
    /** The `trait_type` string the document shows. */
    function Name(): (s: string)
      ensures s != ""
    {
      match this
      case RarityTrait => "Rarity"
      case BalanceTrait => "TBA Balance"
      case BoostTierTrait => "Boost Tier"
      case StatusTrait => "Status"
      case ThresholdTrait => "Animation Threshold"
      case AccountTrait => "Token Bound Account"
    }
  }

  /** The trait types in the order they appear; the sixth is present only
      for a token with a token-bound account. */
  const TraitOrder: seq<Trait> :=
    [RarityTrait, BalanceTrait, BoostTierTrait, StatusTrait, ThresholdTrait, AccountTrait]

  /** An attribute value is a JSON string or a JSON number. */
  datatype AttributeValue = Text(text: string) | Num(number: int)

  datatype Attribute = Attribute(traitType: Trait, value: AttributeValue, displayType: Option<string>)

  /** One token's document; animationUrl None means the key is absent. */
  datatype Metadata = Metadata(
    name: string,
    description: string,
    image: string,
    externalUrl: string,
    attributes: seq<Attribute>,
    backgroundColor: string,
    animationUrl: Option<string>)

  /** The collection-level document. */
  datatype ContractMetadata = ContractMetadata(
    name: string,
    description: string,
    image: string,
    externalLink: string,
    sellerFeeBasisPoints: nat,
    feeRecipient: string)

  /** formatBalance: the whole number of tokens in an 18-decimal amount, as
      decimal digits. The fractional part is cut off, never rounded. */
  function FormatBalance(amount: nat): (s: string)
    ensures IsCanonicalDecimal(s)
    ensures Value(s, 10) * Wei <= amount < (Value(s, 10) + 1) * Wei
  {
    ValueOfNatToString(amount / Wei);
    NatToString(amount / Wei)
  }

  /** `RARITY_NAMES[rarity] || "Common"`: the lookup is undefined past the
      table and falls back to "Common". No entry of the table is empty, so
      the fallback never replaces an entry. */
  function RarityName(rarity: nat): (name: string)
    ensures name in RarityNames
    ensures rarity < |RarityNames| ==> name == RarityNames[rarity]
    ensures rarity >= |RarityNames| ==> name == "Common"
  {
    assert forall i :: 0 <= i < |RarityNames| ==> RarityNames[i] != "";
    Js.OrElse(Js.At(RarityNames, rarity), "Common")
  }

  /** The image URL and animation URL (undefined when None) of one token. */
  function Images(cfg: Config, idText: string, isAnimated: bool): (string, Option<string>) {
    var staticImage := cfg.staticImageBase + idText + ".jpg";
    if !isAnimated then (staticImage, None)
    else if Js.Truthy(cfg.animatedImageBase) then
      var animated := cfg.animatedImageBase.value + idText + ".gif";
      (animated, Some(animated))
    else (staticImage, Some(cfg.animationOverlay))
  }

  /** The attribute list of one token. */
  function Attributes(d: TokenData): seq<Attribute> {
    AttributeList(
      RarityName(d.rarity),
      FormatBalance(d.animation.balance) + TokenSuffix,
      d.boostTier,
      if d.animation.isAnimated then PoweredUpStatus else StandardStatus,
      FormatBalance(d.animation.threshold) + TokenSuffix,
      d.tokenBoundAccount)
  }

  /** The attribute list from its already formatted values: five in trait
      order, then the token-bound account when there is one. */
  function AttributeList(
    rarity: string, balance: string, boostTier: nat, status: string, threshold: string,
    tokenBoundAccount: Option<string>): seq<Attribute>
  {
    FixedAttributes(rarity, balance, boostTier, status, threshold) + AccountAttribute(tokenBoundAccount)
  }

  function FixedAttributes(
    rarity: string, balance: string, boostTier: nat, status: string, threshold: string): seq<Attribute>
  {
    [
      Attribute(RarityTrait, Text(rarity), None),
      Attribute(BalanceTrait, Text(balance), Some("number")),
      Attribute(BoostTierTrait, Num(boostTier), None),
      Attribute(StatusTrait, Text(status), None),
      Attribute(ThresholdTrait, Text(threshold), None)
    ]
  }

  /** The layout of an attribute list: the five fixed traits in order, the
      account sixth when present, and a display type on the balance only. */
  lemma AttributeListLayout(
    rarity: string, balance: string, boostTier: nat, status: string, threshold: string,
    tokenBoundAccount: Option<string>)
    ensures var a := AttributeList(rarity, balance, boostTier, status, threshold, tokenBoundAccount);
      && |a| == (if Js.Truthy(tokenBoundAccount) then 6 else 5)
      && (forall i :: 0 <= i < |a| ==> a[i].traitType == TraitOrder[i])
      && (forall i :: 0 <= i < |a| ==> (a[i].displayType.Some? <==> i == 1))
      && a[1].displayType == Some("number")
  {
    var fixed := FixedAttributes(rarity, balance, boostTier, status, threshold);
    var a := AttributeList(rarity, balance, boostTier, status, threshold, tokenBoundAccount);
    assert a[..5] == fixed;
  }

  /** `if (tbaAddress) attributes.push(...)`. */
  function AccountAttribute(tokenBoundAccount: Option<string>): seq<Attribute> {
    if Js.Truthy(tokenBoundAccount) then [Attribute(AccountTrait, Text(tokenBoundAccount.value), None)]
    else []
  }

  /** The document for token `id` once its four reads are known. */
  function Assemble(cfg: Config, id: Js.Number, d: TokenData): (m: Metadata)
    ensures m.name == cfg.collectionName + " #" + Js.ToString(id)
    ensures m.externalUrl == cfg.externalUrl + "/nft/" + Js.ToString(id)
    ensures d.animation.isAnimated ==> m.description == cfg.collectionDescription + PoweredUpSuffix
    ensures !d.animation.isAnimated ==> m.description == cfg.collectionDescription
    ensures m.backgroundColor == PoweredUpBackground <==> d.animation.isAnimated
    ensures m.backgroundColor == StandardBackground <==> !d.animation.isAnimated
    ensures m.animationUrl.Some? ==> d.animation.isAnimated && m.animationUrl.value != ""
    ensures d.animation.isAnimated && Js.Truthy(cfg.animatedImageBase) ==>
      m.image == cfg.animatedImageBase.value + Js.ToString(id) + ".gif" && m.animationUrl == Some(m.image)
    ensures !(d.animation.isAnimated && Js.Truthy(cfg.animatedImageBase)) ==>
      m.image == cfg.staticImageBase + Js.ToString(id) + ".jpg"
    ensures d.animation.isAnimated && !Js.Truthy(cfg.animatedImageBase) && cfg.animationOverlay != "" ==>
      m.animationUrl == Some(cfg.animationOverlay)
    ensures |m.attributes| == if Js.Truthy(d.tokenBoundAccount) then 6 else 5
    ensures forall i :: 0 <= i < |m.attributes| ==> m.attributes[i].traitType == TraitOrder[i]
    ensures forall i :: 0 <= i < |m.attributes| ==> (m.attributes[i].displayType.Some? <==> i == 1)
    ensures m.attributes[1].displayType == Some("number")
  {
    var idText := Js.ToString(id);
    var (image, animationUrl) := Images(cfg, idText, d.animation.isAnimated);
    AttributeListLayout(
      RarityName(d.rarity),
      FormatBalance(d.animation.balance) + TokenSuffix,
      d.boostTier,
      if d.animation.isAnimated then PoweredUpStatus else StandardStatus,
      FormatBalance(d.animation.threshold) + TokenSuffix,
      d.tokenBoundAccount);
    Metadata(
      cfg.collectionName + " #" + idText,
      cfg.collectionDescription + (if d.animation.isAnimated then PoweredUpSuffix else ""),
      image,
      cfg.externalUrl + "/nft/" + idText,
      Attributes(d),
      if d.animation.isAnimated then PoweredUpBackground else StandardBackground,
      if Js.Truthy(animationUrl) then animationUrl else None)
  }

  /** buildMetadata: read the chain, collapse every failure to its fallback,
      assemble the document. Both copies of the logic are this function with
      their own configuration. */
  function BuildMetadata(cfg: Config, id: Js.Number, answers: ChainReads): (m: Metadata)
    ensures m.name == cfg.collectionName + " #" + Js.ToString(id)
    ensures m.backgroundColor == PoweredUpBackground <==>
      AnimationData(cfg, answers.animationStatus).isAnimated
    ensures TraitValue(m.attributes, RarityTrait) == Some(Text(RarityName(Rarity(cfg, answers.rarity))))
    ensures TraitValue(m.attributes, BoostTierTrait) == Some(Num(BoostTier(cfg, answers.boostTier)))
    ensures TraitValue(m.attributes, BalanceTrait) ==
      Some(Text(FormatBalance(AnimationData(cfg, answers.animationStatus).balance) + TokenSuffix))
    ensures TraitValue(m.attributes, AccountTrait).Some? <==>
      Js.Truthy(TbaAddress(cfg, answers.tokenBoundAccount))
  {
    TraitsReadBack(cfg, id, ReadToken(cfg, answers));
    Assemble(cfg, id, ReadToken(cfg, answers))
  }

  /** buildContractMetadata: the collection document, a 5% royalty paid to
      the configured recipient or else to the zero address. It takes no
      token and reads nothing from the chain. */
  function BuildContractMetadata(cfg: Config): (c: ContractMetadata)
    ensures c.sellerFeeBasisPoints == 500
    ensures Js.Truthy(cfg.royaltyRecipient) ==> c.feeRecipient == cfg.royaltyRecipient.value
    ensures !Js.Truthy(cfg.royaltyRecipient) ==> c.feeRecipient == ZeroAddress
    ensures c.image == cfg.staticImageBase + "collection.png"
    ensures c.name == cfg.collectionName && c.externalLink == cfg.externalUrl
  {
    ContractMetadata(
      cfg.collectionName, cfg.collectionDescription,
      cfg.staticImageBase + "collection.png", cfg.externalUrl,
      500, Js.OrElse(cfg.royaltyRecipient, ZeroAddress))
  }

  /** What a marketplace reads for a trait: the value of the first attribute
      with that trait type. */
  function TraitValue(attributes: seq<Attribute>, traitType: Trait): Option<AttributeValue> {
    if |attributes| == 0 then None
    else if attributes[0].traitType == traitType then Some(attributes[0].value)
    else TraitValue(attributes[1..], traitType)
  }

  /** No two trait types share a `trait_type` string, so looking a trait up
      by its type and by its string are the same thing. */
  lemma TraitNamesDistinct(s: Trait, t: Trait)
    ensures s.Name() == t.Name() <==> s == t
  {
    if s != t {
      assert |s.Name()| != |t.Name()| || s.Name()[0] != t.Name()[0];
    }
  }

  /** The lookup a marketplace performs on the JSON: the value of the first
      attribute whose `trait_type` string is the given one. */
  function NamedTraitValue(attributes: seq<Attribute>, name: string): Option<AttributeValue> {
    if |attributes| == 0 then None
    else if attributes[0].traitType.Name() == name then Some(attributes[0].value)
    else NamedTraitValue(attributes[1..], name)
  }

  /** Looking a trait up by its string finds what the lookup by type finds. */
  lemma {:induction false} NamedLookupAgrees(a: seq<Attribute>, t: Trait)
    ensures NamedTraitValue(a, t.Name()) == TraitValue(a, t)
    decreases |a|
  {
    if |a| > 0 {
      TraitNamesDistinct(a[0].traitType, t);
      NamedLookupAgrees(a[1..], t);
    }
  }

  /** In a list laid out in trait order from position `offset`, the lookup
      of a trait finds the attribute at that trait's position. */
  lemma {:induction false} TraitValueAt(a: seq<Attribute>, offset: nat, k: nat)
    requires offset + |a| <= |TraitOrder| && k < |a|
    requires forall i :: 0 <= i < |a| ==> a[i].traitType == TraitOrder[offset + i]
    ensures TraitValue(a, TraitOrder[offset + k]) == Some(a[k].value)
    decreases |a|
  {
    if k > 0 {
      assert a[0].traitType != TraitOrder[offset + k];
      TraitValueAt(a[1..], offset + 1, k - 1);
    }
  }

  /** A trait that does not occur in such a list is not found. */
  lemma {:induction false} TraitValueMissing(a: seq<Attribute>, offset: nat, k: nat)
    requires offset + |a| <= k < |TraitOrder|
    requires forall i :: 0 <= i < |a| ==> a[i].traitType == TraitOrder[offset + i]
    ensures TraitValue(a, TraitOrder[k]) == None
    decreases |a|
  {
    if |a| > 0 {
      assert a[0].traitType != TraitOrder[k];
      TraitValueMissing(a[1..], offset + 1, k);
    }
  }

  /** Truncation, not rounding: 1.999... tokens show as "1", and the
      fallback amounts show as "0" and "50000". */
  lemma FormatBalanceExamples()
    ensures FormatBalance(1_999_999_999_999_999_999) == "1"
    ensures FormatBalance(0) == "0"
    ensures FormatBalance(FallbackAnimation.threshold) == "50000"
  {
    assert NatToString(5) == "5";
    assert NatToString(50) == "50";
    assert NatToString(500) == "500";
    assert NatToString(5000) == "5000";
    assert NatToString(50000) == "50000";
  }

  /** Every formatted balance is the rendering of a unique whole number:
      two amounts format alike exactly when they hold the same number of
      whole tokens. */
  lemma FormatBalanceWholeTokens(a: nat, b: nat)
    ensures FormatBalance(a) == FormatBalance(b) <==> a / Wei == b / Wei
  {
    ValueOfNatToString(a / Wei);
    ValueOfNatToString(b / Wei);
  }

  /** Reading a balance attribute back with parseInt gives the whole number
      of tokens: the " ATH" suffix stops the digits. */
  lemma BalanceAttributeReadsBack(amount: nat)
    ensures Js.ParseInt(FormatBalance(amount) + TokenSuffix) == Js.Int(amount / Wei)
  {
    Js.ParseIntOfDecimalPrefix(amount / Wei, TokenSuffix);
  }

  /** The four places the document shows the power-up agree with each
      other and with the chain's flag, for any configuration built from an
      environment: animation_url is present, Status reads "Powered Up",
      the background is gold and the description carries the suffix exactly
      when the token is animated. */
  lemma AnimationSignalsAgree(cfg: Config, id: Js.Number, d: TokenData)
    requires cfg.Resolved()
    ensures var m := Assemble(cfg, id, d);
      && (m.animationUrl.Some? <==> d.animation.isAnimated)
      && (TraitValue(m.attributes, StatusTrait) == Some(Text(PoweredUpStatus)) <==> d.animation.isAnimated)
      && (m.backgroundColor == PoweredUpBackground <==> d.animation.isAnimated)
      && (m.description == cfg.collectionDescription + PoweredUpSuffix <==> d.animation.isAnimated)
  {
    var m := Assemble(cfg, id, d);
    assert m.attributes == Attributes(d);
    AttributeListReadBack(
      RarityName(d.rarity),
      FormatBalance(d.animation.balance) + TokenSuffix,
      d.boostTier,
      if d.animation.isAnimated then PoweredUpStatus else StandardStatus,
      FormatBalance(d.animation.threshold) + TokenSuffix,
      d.tokenBoundAccount);
    if !d.animation.isAnimated {
      assert |PoweredUpSuffix| > 0;
      assert |m.description| < |cfg.collectionDescription + PoweredUpSuffix|;
    }
  }

  /** ANIMATED_IMAGE_IPFS decides how an animated token is shown, in either
      copy: its pre-rendered gif as both image and animation_url when the
      variable is set, otherwise the static jpg with the overlay (the
      environment's, or the copy's default) as animation_url. */
  lemma AnimatedImageFromEnvironment(env: Env, cfg: Config, id: Js.Number, d: TokenData)
    requires cfg == LibraryConfig(env) || cfg == ServerConfig(env)
    requires d.animation.isAnimated
    ensures var m := Assemble(cfg, id, d);
      Js.Truthy(env.animatedImageIpfs) ==>
        m.image == env.animatedImageIpfs.value + Js.ToString(id) + ".gif" && m.animationUrl == Some(m.image)
    ensures var m := Assemble(cfg, id, d);
      !Js.Truthy(env.animatedImageIpfs) ==>
        m.image == cfg.staticImageBase + Js.ToString(id) + ".jpg" && m.animationUrl == Some(cfg.animationOverlay)
    ensures var m := Assemble(cfg, id, d);
      !Js.Truthy(env.animatedImageIpfs) && Js.Truthy(env.animationOverlayIpfs) ==>
        m.animationUrl == Some(env.animationOverlayIpfs.value)
  {
  }

  /** A marketplace reading the document finds the rarity name, the
      balance, the boost tier and the token-bound account where the chain
      put them. */
  lemma TraitsReadBack(cfg: Config, id: Js.Number, d: TokenData)
    ensures var a := Assemble(cfg, id, d).attributes;
      && TraitValue(a, RarityTrait) == Some(Text(RarityName(d.rarity)))
      && TraitValue(a, BalanceTrait) == Some(Text(FormatBalance(d.animation.balance) + TokenSuffix))
      && TraitValue(a, BoostTierTrait) == Some(Num(d.boostTier))
      && TraitValue(a, StatusTrait) ==
           Some(Text(if d.animation.isAnimated then PoweredUpStatus else StandardStatus))
      && TraitValue(a, ThresholdTrait) == Some(Text(FormatBalance(d.animation.threshold) + TokenSuffix))
      && TraitValue(a, AccountTrait) ==
           if Js.Truthy(d.tokenBoundAccount) then Some(Text(d.tokenBoundAccount.value)) else None
  {
    assert Assemble(cfg, id, d).attributes == Attributes(d);
    AttributeListReadBack(
      RarityName(d.rarity),
      FormatBalance(d.animation.balance) + TokenSuffix,
      d.boostTier,
      if d.animation.isAnimated then PoweredUpStatus else StandardStatus,
      FormatBalance(d.animation.threshold) + TokenSuffix,
      d.tokenBoundAccount);
  }

  lemma AttributeListReadBack(
    rarity: string, balance: string, boostTier: nat, status: string, threshold: string,
    tokenBoundAccount: Option<string>)
    ensures var a := AttributeList(rarity, balance, boostTier, status, threshold, tokenBoundAccount);
      && TraitValue(a, TraitOrder[0]) == Some(Text(rarity))
      && TraitValue(a, TraitOrder[1]) == Some(Text(balance))
      && TraitValue(a, TraitOrder[2]) == Some(Num(boostTier))
      && TraitValue(a, TraitOrder[3]) == Some(Text(status))
      && TraitValue(a, TraitOrder[4]) == Some(Text(threshold))
      && TraitValue(a, TraitOrder[5]) ==
           if Js.Truthy(tokenBoundAccount) then Some(Text(tokenBoundAccount.value)) else None
  {
    var fixed := FixedAttributes(rarity, balance, boostTier, status, threshold);
    var account := AccountAttribute(tokenBoundAccount);
    TraitValueAt(fixed, 0, 0);
    TraitValueAt(fixed, 0, 1);
    TraitValueAt(fixed, 0, 2);
    TraitValueAt(fixed, 0, 3);
    TraitValueAt(fixed, 0, 4);
    TraitValueMissing(fixed, 0, 5);
    forall k | 0 <= k < 6 {
      TraitValueAppend(fixed, account, TraitOrder[k]);
    }
  }

  /** Looking a trait up in two lists joined finds it in the first when it
      is there, and in the second otherwise. */
  lemma {:induction false} TraitValueAppend(a: seq<Attribute>, b: seq<Attribute>, t: Trait)
    ensures TraitValue(a + b, t) == if TraitValue(a, t).Some? then TraitValue(a, t) else TraitValue(b, t)
    decreases |a|
  {
    if |a| == 0 {
      assert a + b == b;
    } else {
      assert (a + b)[1..] == a[1..] + b;
      TraitValueAppend(a[1..], b, t);
    }
  }

  /** The token id can be read back from the name and the external URL with
      parseInt, whatever Number the handler passed in. */
  lemma TokenIdReadsBack(cfg: Config, id: Js.Number, d: TokenData)
    ensures var m := Assemble(cfg, id, d);
      && Js.ParseInt(m.name[|cfg.collectionName| + 2..]) == id
      && Js.ParseInt(m.externalUrl[|cfg.externalUrl| + 5..]) == id
  {
    var m := Assemble(cfg, id, d);
    assert m.name[|cfg.collectionName| + 2..] == Js.ToString(id);
    assert m.externalUrl[|cfg.externalUrl| + 5..] == Js.ToString(id);
    Js.NumberRoundTrip(id);
  }

  /** With no staking manager, whatever the chain would answer, every token
      shows the fallback: standard status, "0 ATH" held of a "50000 ATH"
      threshold, boost tier 0, no token-bound account, no animation. */
  lemma UnconfiguredStakingDefaults(cfg: Config, id: Js.Number, answers: ChainReads)
    requires !cfg.StakingConfigured()
    ensures var m := BuildMetadata(cfg, id, answers);
      && m.animationUrl.None?
      && m.backgroundColor == StandardBackground
      && m.image == cfg.staticImageBase + Js.ToString(id) + ".jpg"
      && |m.attributes| == 5
      && m.attributes[1].value == Text("0 ATH")
      && m.attributes[2].value == Num(0)
      && m.attributes[3].value == Text(StandardStatus)
      && m.attributes[4].value == Text("50000 ATH")
  {
    FormatBalanceExamples();
  }
}

=== FILE: options.dfy ===
/** Optional values: a JavaScript `null`/`undefined` on one side, a present
    value on the other. */
module Options {

  datatype Option<+T> = None | Some(value: T) {

    /** The value, or the given default when absent. */
    function GetOr(default: T): T {
      match this
      case Some(v) => v
      case None => default
    }
  }
}

=== FILE: server.dfy ===
/** The long-running server's request handling: token-ID validation, the
    batch endpoint, the animation-progress report, the collection document,
    and Express's first-match routing over the routes in registration order.
    Response headers, CORS and logging are not modelled. */
module Server {
  import opened Options
  import opened Decimal
  import Js
  import opened Configuration
  import opened ChainReader
  import opened MetadataBuilder

  const MaxTokenId: int := 500
  const MaxBatchSize: nat := 50

  const InvalidTokenMessage: string := "Invalid token ID. Must be 1-500."
  const InvalidAnimationTokenMessage: string := "Invalid token ID"
  const BatchSizeMessage: string := "Provide 1-50 token IDs"
  const MetadataFailureMessage: string := "Failed to generate metadata"
  const AnimationFailureMessage: string := "Failed to check animation status"
  const NotConfigured: string := "not configured"

  /** `req.query.ids`: absent, one string, or (for a repeated or bracketed
      key) an array or object, which has no `split`. */
  datatype QueryValue = Missing | Single(text: string) | Structured

  /** A GET request: the decoded path segments and the `ids` query value. */
  datatype Request = Request(path: seq<string>, ids: QueryValue)

  /** The body of a successful /animation response. */
  datatype AnimationReport = AnimationReport(
    tokenId: int, isAnimated: bool, balance: string, threshold: string, progress: int)

  datatype Body =
    | TokenBody(metadata: Metadata)
    | BatchBody(documents: seq<Metadata>)
    | AnimationBody(report: AnimationReport)
    | CollectionBody(collection: ContractMetadata)
    | HealthBody(stakingManager: string, nftContract: string)

  datatype Response = Ok(body: Body) | BadRequest(error: string) | ServerError(error: string) | NotFound

  function StatusCode(r: Response): nat {
    match r
    case Ok(_) => 200
    case BadRequest(_) => 400
    case ServerError(_) => 500
    case NotFound => 404
  }

  /** The chain as a handler sees it: what the view calls answer for the
      Number passed as token id. */
  type Chain = Js.Number -> ChainReads

  /** `!(isNaN(id) || id < 1 || id > 500)`. */
  predicate IsValidTokenId(id: Js.Number) {
    id.Int? && 1 <= id.value <= MaxTokenId
  }

  /** BigInt division, which truncates toward zero (unlike Dafny's `/`). */
  function BigIntDiv(a: int, b: int): (q: int)
    requires b != 0
    ensures Abs(q) * Abs(b) <= Abs(a) < (Abs(q) + 1) * Abs(b)
    ensures q > 0 ==> (a < 0 <==> b < 0)
    ensures q < 0 ==> (a < 0 <==> b > 0)
  {
    var m := Abs(a) / Abs(b);
    DivisionBounds(Abs(a), Abs(b));
    if (a < 0) == (b < 0) then
      m
    else
      assert Abs(-m) == m;
      -m
  }

  lemma DivisionBounds(x: nat, y: nat)
    requires y > 0
    ensures (x / y) * y <= x < (x / y + 1) * y
  {
    assert x == (x / y) * y + x % y;
  }

  function Abs(x: int): nat {
    if x < 0 then -x else x
  }

  /** `(balance * 100n) / threshold`: the whole percentage of the threshold
      reached, rounded down; 100 or more exactly when the balance has
      reached the threshold. */
  function Progress(balance: nat, threshold: nat): (p: int)
    requires threshold > 0
    ensures 0 <= p
    ensures p * threshold <= balance * 100 < (p + 1) * threshold
    ensures p >= 100 <==> balance >= threshold
  {
    var p := BigIntDiv(balance * 100, threshold);
    assert Abs(p) == p;
    assert p >= 100 ==> balance >= threshold by {
      if p >= 100 {
        MultiplyMonotone(100, p, threshold);
      }
    }
    assert balance >= threshold ==> p >= 100 by {
      if balance >= threshold {
        MultiplyMonotone(threshold, balance, 100);
        CancelPositive(100, p + 1, threshold);
      }
    }
    p
  }

  lemma CancelPositive(x: int, y: int, z: nat)
    requires z > 0 && x * z < y * z
    ensures x < y
  {
    if x >= y {
      MultiplyMonotone(y, x, z);
    }
  }

  lemma MultiplyMonotone(x: int, y: int, z: nat)
    requires x <= y
    ensures x * z <= y * z
  {
  }

  /** GET /metadata/:tokenId. */
  function TokenMetadataHandler(cfg: Config, chain: Chain, param: string): (r: Response)
    ensures r.BadRequest? <==> !IsValidTokenId(Js.ParseInt(param))
    ensures r.BadRequest? ==> r.error == InvalidTokenMessage
    ensures !r.BadRequest? ==> r.Ok? && r.body.TokenBody?
    ensures r.Ok? ==>
      r.body.metadata.name == cfg.collectionName + " #" + NatToString(Js.ParseInt(param).value)
    ensures r.Ok? ==> var id := Js.ParseInt(param);
      r.body.metadata == BuildMetadata(cfg, id, chain(id))
  {
    var id := Js.ParseInt(param);
    if !IsValidTokenId(id) then BadRequest(InvalidTokenMessage)
    else Ok(TokenBody(BuildMetadata(cfg, id, chain(id))))
  }

  /** `ids.split(",").map(id => parseInt(id))`. */
  function ParseIds(text: string): (ids: seq<Js.Number>)
    ensures |ids| == Js.Count(text, ',') + 1
    ensures forall i :: 0 <= i < |ids| ==> ids[i] == Js.ParseInt(Js.Split(text, ',')[i])
  {
    var parts := Js.Split(text, ',');
    seq(|parts|, i requires 0 <= i < |parts| => Js.ParseInt(parts[i]))
  }

  /** GET /metadata/batch?ids=...: 1 to 50 ids, each built as it parsed,
      without any range check. */
  function BatchHandler(cfg: Config, chain: Chain, ids: QueryValue): (r: Response)
    ensures r.BadRequest? <==> ids.Missing? || (ids.Single? && Js.Count(ids.text, ',') >= MaxBatchSize)
    ensures r.ServerError? <==> ids.Structured?
    ensures r.BadRequest? ==> r.error == BatchSizeMessage
    ensures r.ServerError? ==> r.error == MetadataFailureMessage
    ensures r.Ok? ==> ids.Single? && r.body.BatchBody?
    ensures r.Ok? ==> var tokenIds := ParseIds(ids.text);
      && |r.body.documents| == |tokenIds|
      && forall i :: 0 <= i < |tokenIds| ==>
           r.body.documents[i] == BuildMetadata(cfg, tokenIds[i], chain(tokenIds[i]))
  {
    match ids
    case Missing => BadRequest(BatchSizeMessage)
    case Structured => ServerError(MetadataFailureMessage)
    case Single(text) =>
      var tokenIds := ParseIds(text);
      if |tokenIds| == 0 || |tokenIds| > MaxBatchSize then BadRequest(BatchSizeMessage)
      else
        Ok(BatchBody(seq(|tokenIds|, i requires 0 <= i < |tokenIds| =>
          BuildMetadata(cfg, tokenIds[i], chain(tokenIds[i])))))
  }

  /** GET /animation/:tokenId: the collapsed animation status, formatted,
      with the percentage of the threshold reached. A zero threshold makes
      the BigInt division throw, which the handler answers with 500. */
  function AnimationHandler(cfg: Config, chain: Chain, param: string): (r: Response)
    ensures r.BadRequest? <==> !IsValidTokenId(Js.ParseInt(param))
    ensures r.BadRequest? ==> r.error == InvalidAnimationTokenMessage
    ensures r.ServerError? <==>
      IsValidTokenId(Js.ParseInt(param)) && AnimationData(cfg, chain(Js.ParseInt(param)).animationStatus).threshold == 0
    ensures r.Ok? ==> r.body.AnimationBody?
    ensures r.Ok? ==> var a := AnimationData(cfg, chain(Js.ParseInt(param)).animationStatus);
      var report := r.body.report;
      && report.tokenId == Js.ParseInt(param).value
      && report.isAnimated == a.isAnimated
      && report.balance == FormatBalance(a.balance)
      && report.threshold == FormatBalance(a.threshold)
      && a.threshold > 0
      && report.progress == Progress(a.balance, a.threshold)
  {
    var id := Js.ParseInt(param);
    if !IsValidTokenId(id) then BadRequest(InvalidAnimationTokenMessage)
    else
      var a := AnimationData(cfg, chain(id).animationStatus);
      if a.threshold == 0 then ServerError(AnimationFailureMessage)
      else
        Ok(AnimationBody(AnimationReport(
          id.value, a.isAnimated, FormatBalance(a.balance), FormatBalance(a.threshold),
          Progress(a.balance, a.threshold))))
  }

  /** GET /contract. */
  function CollectionHandler(cfg: Config): Response {
    Ok(CollectionBody(BuildContractMetadata(cfg)))
  }

  /** GET /: the configured addresses, or "not configured". */
  function HealthHandler(cfg: Config): Response {
    Ok(HealthBody(Js.OrElse(cfg.stakingManager, NotConfigured), Js.OrElse(cfg.nftContract, NotConfigured)))
  }

  /** A route path segment: a fixed word or a `:name` parameter. */
  datatype Segment = Literal(word: string) | Param

  datatype Handler = HealthCheck | TokenMetadata | BatchMetadata | AnimationStatusReport | Collection

  datatype Route = Route(pattern: seq<Segment>, handler: Handler)

  /** A route matches a path with as many segments, equal words, and a
      non-empty value for every parameter. */
  predicate Matches(pattern: seq<Segment>, path: seq<string>) {
    && |pattern| == |path|
    && forall i :: 0 <= i < |path| ==>
         match pattern[i]
         case Literal(w) => path[i] == w
         case Param => path[i] != ""
  }

  const TokenPattern: seq<Segment> := [Literal("metadata"), Param]
  const BatchPattern: seq<Segment> := [Literal("metadata"), Literal("batch")]
  const BatchPath: seq<string> := ["metadata", "batch"]

  /** The routes in the order the server registers them. */
  const RegisteredRoutes: seq<Route> := [
    Route([], HealthCheck),
    Route(TokenPattern, TokenMetadata),
    Route(BatchPattern, BatchMetadata),
    Route([Literal("animation"), Param], AnimationStatusReport),
    Route([Literal("contract")], Collection)
  ]

  /** The same routes with the batch route ahead of the parameterised one. */
  const CorrectedRoutes: seq<Route> := [
    Route([], HealthCheck),
    Route(BatchPattern, BatchMetadata),
    Route(TokenPattern, TokenMetadata),
    Route([Literal("animation"), Param], AnimationStatusReport),
    Route([Literal("contract")], Collection)
  ]

  /** The index of the first route, at or after `from`, that matches. */
  function FirstMatch(routes: seq<Route>, path: seq<string>, from: nat): (k: Option<nat>)
    requires from <= |routes|
    ensures k.Some? ==> from <= k.value < |routes| && Matches(routes[k.value].pattern, path)
    ensures k.Some? ==> forall j :: from <= j < k.value ==> !Matches(routes[j].pattern, path)
    ensures k.None? ==> forall j :: from <= j < |routes| ==> !Matches(routes[j].pattern, path)
    decreases |routes| - from
  {
    if from == |routes| then None
    else if Matches(routes[from].pattern, path) then Some(from)
    else FirstMatch(routes, path, from + 1)
  }

  function Handle(handler: Handler, cfg: Config, chain: Chain, request: Request): Response {
    var param := if |request.path| >= 2 then request.path[1] else "";
    match handler
    case HealthCheck => HealthHandler(cfg)
    case TokenMetadata => TokenMetadataHandler(cfg, chain, param)
    case BatchMetadata => BatchHandler(cfg, chain, request.ids)
    case AnimationStatusReport => AnimationHandler(cfg, chain, param)
    case Collection => CollectionHandler(cfg)
  }

  /** Express routing: the first matching route answers; no match is 404. */
  function Dispatch(routes: seq<Route>, cfg: Config, chain: Chain, request: Request): (r: Response)
    ensures StatusCode(r) == 404 <==> forall j :: 0 <= j < |routes| ==> !Matches(routes[j].pattern, request.path)
  {
    match FirstMatch(routes, request.path, 0)
    case None => NotFound
    case Some(k) =>
      var r := Handle(routes[k].handler, cfg, chain, request);
      assert !r.NotFound?;
      r
  }

  /** "42abc" is read as its numeric prefix 42 and accepted. */
  lemma NumericPrefixAccepted()
    ensures Js.ParseInt("42abc") == Js.Int(42) && IsValidTokenId(Js.ParseInt("42abc"))
  {
    assert NatToString(42) == "42" by {
      assert NatToString(4) == "4";
    }
    assert "42abc" == NatToString(42) + "abc";
    Js.ParseIntOfDecimalPrefix(42, "abc");
  }

  /** "abc" and "batch" have no numeric prefix: NaN, rejected. */
  lemma NonNumericRejected()
    ensures Js.ParseInt("abc") == Js.NaN && !IsValidTokenId(Js.ParseInt("abc"))
    ensures Js.ParseInt("batch") == Js.NaN
  {
    Js.ParseIntOfNonNumeric("abc");
    Js.ParseIntOfNonNumeric("batch");
  }

  /** "501" parses but is past the last token. */
  lemma OutOfRangeRejected()
    ensures Js.ParseInt("501") == Js.Int(501) && !IsValidTokenId(Js.ParseInt("501"))
  {
    assert NatToString(501) == "501" by {
      assert NatToString(5) == "5";
      assert NatToString(50) == "50";
    }
    assert "501" == NatToString(501) + "";
    Js.ParseIntOfDecimalPrefix(501, "");
  }

  /** A "0x" prefix switches to hexadecimal: "0x1f4" is 500 and accepted. */
  lemma HexTokenIdAccepted()
    ensures Js.ParseInt("0x1f4") == Js.Int(500) && IsValidTokenId(Js.ParseInt("0x1f4"))
  {
    var v := "1f4";
    assert "0x1f4" == "0x" + v + "";
    assert IsRadixDigit(v[0], 16) && IsRadixDigit(v[1], 16) && IsRadixDigit(v[2], 16);
    Js.ParseIntOfHex(v, "");
    HexValue500();
  }

  /** The hexadecimal digits "1f4" denote 500. */
  lemma HexValue500()
    ensures Value("1f4", 16) == 500
  {
    var v := "1f4";
    assert v[..2] == "1f" && "1f"[..1] == "1" && "1"[..0] == "";
    assert Value("1", 16) == 1;
    assert Value("1f", 16) == 31;
  }

  /** A token-scoped request with an unusable id is answered 400 before
      anything is read: the answer is the same whatever the chain holds. */
  lemma InvalidIdsReadNothing(cfg: Config, chain: Chain, other: Chain, param: string)
    requires !IsValidTokenId(Js.ParseInt(param))
    ensures TokenMetadataHandler(cfg, chain, param) == TokenMetadataHandler(cfg, other, param)
      == BadRequest(InvalidTokenMessage)
    ensures AnimationHandler(cfg, chain, param) == AnimationHandler(cfg, other, param)
      == BadRequest(InvalidAnimationTokenMessage)
  {
  }

  /** With the staking manager unconfigured, every valid token reports the
      fallback: not animated, "0" of "50000", progress 0. */
  lemma AnimationFallbackReport(cfg: Config, chain: Chain, param: string)
    requires !cfg.StakingConfigured() && IsValidTokenId(Js.ParseInt(param))
    ensures AnimationHandler(cfg, chain, param) ==
      Ok(AnimationBody(AnimationReport(Js.ParseInt(param).value, false, "0", "50000", 0)))
  {
    FormatBalanceExamples();
  }

  /** The batch ids are not range-checked: "abc" and "0" each yield one
      document, named "#NaN" and "#0". */
  lemma BatchIdsNotRangeChecked(cfg: Config, chain: Chain)
    ensures var r := BatchHandler(cfg, chain, Single("abc"));
      r.Ok? && |r.body.documents| == 1 && r.body.documents[0].name == cfg.collectionName + " #NaN"
    ensures var r := BatchHandler(cfg, chain, Single("0"));
      r.Ok? && |r.body.documents| == 1 && r.body.documents[0].name == cfg.collectionName + " #0"
  {
    NonNumericBatchId(cfg, chain);
    ZeroBatchId(cfg, chain);
  }

  /** "abc" parses to NaN, which the batch handler builds a document for. */
  lemma NonNumericBatchId(cfg: Config, chain: Chain)
    ensures var r := BatchHandler(cfg, chain, Single("abc"));
      r.Ok? && |r.body.documents| == 1 && r.body.documents[0].name == cfg.collectionName + " #NaN"
  {
    Js.ParseIntOfNonNumeric("abc");
    NamedBatchOfOne(cfg, chain, "abc", "NaN");
    assert " #" + "NaN" == " #NaN";
  }

  /** "0" parses to 0, outside 1..500, and is built all the same. */
  lemma ZeroBatchId(cfg: Config, chain: Chain)
    ensures var r := BatchHandler(cfg, chain, Single("0"));
      r.Ok? && |r.body.documents| == 1 && r.body.documents[0].name == cfg.collectionName + " #0"
  {
    DecimalBatchOfOne(cfg, chain, 0);
    assert NatToString(0) == "0";
    assert " #" + "0" == " #0";
  }

  /** A batch of one canonical decimal id holds one document named after it. */
  lemma DecimalBatchOfOne(cfg: Config, chain: Chain, n: nat)
    ensures var r := BatchHandler(cfg, chain, Single(NatToString(n)));
      && r.Ok? && |r.body.documents| == 1
      && r.body.documents[0].name == cfg.collectionName + " #" + NatToString(n)
  {
    var d, x := NatToString(n), Js.Int(n);
    assert Js.ToString(x) == d;
    Js.NumberRoundTrip(x);
    NamedBatchOfOne(cfg, chain, d, d);
  }

  /** A query without a comma is a batch of one: the document of its parsed id. */
  lemma SingleIdBatch(cfg: Config, chain: Chain, text: string)
    requires ',' !in text
    ensures var id := Js.ParseInt(text);
      BatchHandler(cfg, chain, Single(text)) == Ok(BatchBody([BuildMetadata(cfg, id, chain(id))]))
  {
    var parts := Js.Split(text, ',');
    Js.CountAbsent(text, ',');
    assert |parts| == 1 && Js.Join(parts, ',') == text;
    assert parts == [text];
    var id := Js.ParseInt(text);
    var r := BatchHandler(cfg, chain, Single(text));
    assert ParseIds(text) == [id];
    assert r.Ok?;
    assert r.body.documents == [BuildMetadata(cfg, id, chain(id))];
  }

  /** The one document of a comma-free batch is named after the parsed id. */
  lemma NamedBatchOfOne(cfg: Config, chain: Chain, text: string, idText: string)
    requires ',' !in text && Js.ToString(Js.ParseInt(text)) == idText
    ensures var r := BatchHandler(cfg, chain, Single(text));
      && r.Ok? && |r.body.documents| == 1
      && r.body.documents[0].name == cfg.collectionName + " #" + idText
  {
    SingleIdBatch(cfg, chain, text);
  }

  /** As registered, a request for /metadata/batch is caught by the
      /metadata/:tokenId route and rejected: "batch" is not a number. */
  lemma BatchRouteShadowed(cfg: Config, chain: Chain, ids: QueryValue)
    ensures Dispatch(RegisteredRoutes, cfg, chain, Request(BatchPath, ids)) == BadRequest(InvalidTokenMessage)
  {
    assert Matches(RegisteredRoutes[1].pattern, BatchPath);
    assert !Matches(RegisteredRoutes[0].pattern, BatchPath);
    assert FirstMatch(RegisteredRoutes, BatchPath, 0) == Some(1);
    Js.ParseIntOfNonNumeric("batch");
  }

  /** With the batch route registered first, /metadata/batch reaches the
      batch handler. */
  lemma CorrectedBatchRouteReached(cfg: Config, chain: Chain, ids: QueryValue)
    ensures Dispatch(CorrectedRoutes, cfg, chain, Request(BatchPath, ids)) == BatchHandler(cfg, chain, ids)
  {
    assert Matches(CorrectedRoutes[1].pattern, BatchPath);
    assert !Matches(CorrectedRoutes[0].pattern, BatchPath);
    assert FirstMatch(CorrectedRoutes, BatchPath, 0) == Some(1);
  }

  /** Moving the batch route changes the answer to no other path. */
  lemma CorrectionChangesOnlyBatchPath(cfg: Config, chain: Chain, request: Request)
    requires request.path != BatchPath
    ensures Dispatch(CorrectedRoutes, cfg, chain, request) == Dispatch(RegisteredRoutes, cfg, chain, request)
  {
    var p := request.path;
    OnlyBatchPathMatchesBatchPattern(p);
    if Matches(TokenPattern, p) {
      SameRouteOnTokenPaths(cfg, chain, request);
    } else {
      SameRouteOffTokenPaths(cfg, chain, request);
    }
  }

  /** A /metadata/<param> path other than /metadata/batch reaches the token
      handler on both tables. */
  lemma SameRouteOnTokenPaths(cfg: Config, chain: Chain, request: Request)
    requires Matches(TokenPattern, request.path) && !Matches(BatchPattern, request.path)
    ensures Dispatch(CorrectedRoutes, cfg, chain, request) == Dispatch(RegisteredRoutes, cfg, chain, request)
  {
    CorrectedTokenRoute(cfg, chain, request);
    RegisteredTokenRoute(cfg, chain, request);
  }

  /** On the corrected table a token path passes the batch route and stops at the token route. */
  lemma CorrectedTokenRoute(cfg: Config, chain: Chain, request: Request)
    requires Matches(TokenPattern, request.path) && !Matches(BatchPattern, request.path)
    ensures Dispatch(CorrectedRoutes, cfg, chain, request) == TokenMetadataHandler(cfg, chain, request.path[1])
  {
    assert !Matches([], request.path);
    assert CorrectedRoutes[0].pattern == [] && CorrectedRoutes[1].pattern == BatchPattern;
    TokenRoutedTo(CorrectedRoutes, cfg, chain, request, 2);
  }

  /** On the registered table the token route is the first that can match a token path. */
  lemma RegisteredTokenRoute(cfg: Config, chain: Chain, request: Request)
    requires Matches(TokenPattern, request.path)
    ensures Dispatch(RegisteredRoutes, cfg, chain, request) == TokenMetadataHandler(cfg, chain, request.path[1])
  {
    assert !Matches([], request.path);
    assert RegisteredRoutes[0].pattern == [];
    TokenRoutedTo(RegisteredRoutes, cfg, chain, request, 1);
  }

  /** The batch pattern has no parameter: it matches its own path only. */
  lemma OnlyBatchPathMatchesBatchPattern(p: seq<string>)
    ensures Matches(BatchPattern, p) <==> p == BatchPath
  {
    if |p| == 2 {
      assert p == [p[0], p[1]];
    }
  }

  /** A path that neither the token nor the batch pattern matches is routed
      alike by both tables: the remaining routes sit at the same indices. */
  lemma SameRouteOffTokenPaths(cfg: Config, chain: Chain, request: Request)
    requires !Matches(TokenPattern, request.path) && !Matches(BatchPattern, request.path)
    ensures Dispatch(CorrectedRoutes, cfg, chain, request) == Dispatch(RegisteredRoutes, cfg, chain, request)
  {
    var p := request.path;
    assert CorrectedRoutes[0] == RegisteredRoutes[0] && CorrectedRoutes[3..] == RegisteredRoutes[3..];
    var k := FirstMatch(RegisteredRoutes, p, 0);
    assert FirstMatch(CorrectedRoutes, p, 0) == k;
  }

  /** The route at index k answers when it is the first that matches. */
  lemma RoutedTo(routes: seq<Route>, cfg: Config, chain: Chain, request: Request, k: nat)
    requires k < |routes| && Matches(routes[k].pattern, request.path)
    requires forall j :: 0 <= j < k ==> !Matches(routes[j].pattern, request.path)
    ensures Dispatch(routes, cfg, chain, request) == Handle(routes[k].handler, cfg, chain, request)
  {
    assert FirstMatch(routes, request.path, 0) == Some(k);
  }

  /** When the first matching route is the token route, the token handler
      answers with the path's second segment. */
  lemma TokenRoutedTo(routes: seq<Route>, cfg: Config, chain: Chain, request: Request, k: nat)
    requires k < |routes| && routes[k] == Route(TokenPattern, TokenMetadata)
    requires Matches(TokenPattern, request.path)
    requires forall j :: 0 <= j < k ==> !Matches(routes[j].pattern, request.path)
    ensures Dispatch(routes, cfg, chain, request) == TokenMetadataHandler(cfg, chain, request.path[1])
  {
    RoutedTo(routes, cfg, chain, request, k);
  }

  /** As registered, every /metadata/<param> path reaches the token handler. */
  lemma TokenPathRouted(cfg: Config, chain: Chain, param: string, ids: QueryValue)
    requires param != ""
    ensures Dispatch(RegisteredRoutes, cfg, chain, Request(["metadata", param], ids))
      == TokenMetadataHandler(cfg, chain, param)
  {
    var p := ["metadata", param];
    assert Matches(TokenPattern, p) && !Matches([], p);
    TokenRoutedTo(RegisteredRoutes, cfg, chain, Request(p, ids), 1);
  }

  /** On the corrected table, every /metadata/<param> path other than
      /metadata/batch still reaches the token handler. */
  lemma TokenPathRoutedCorrected(cfg: Config, chain: Chain, param: string, ids: QueryValue)
    requires param != "" && param != "batch"
    ensures Dispatch(CorrectedRoutes, cfg, chain, Request(["metadata", param], ids))
      == TokenMetadataHandler(cfg, chain, param)
  {
    var p := ["metadata", param];
    assert Matches(TokenPattern, p) && !Matches([], p);
    assert p[1] == param && !Matches(BatchPattern, p);
    TokenRoutedTo(CorrectedRoutes, cfg, chain, Request(p, ids), 2);
  }

  /** /contract answers the collection document whatever the chain holds
      and whatever the query carries. */
  lemma CollectionRouteIsStatic(cfg: Config, chain: Chain, other: Chain, ids: QueryValue, otherIds: QueryValue)
    ensures Dispatch(RegisteredRoutes, cfg, chain, Request(["contract"], ids))
      == Dispatch(RegisteredRoutes, cfg, other, Request(["contract"], otherIds))
      == Ok(CollectionBody(BuildContractMetadata(cfg)))
  {
    var p := ["contract"];
    assert !Matches(RegisteredRoutes[0].pattern, p);
    assert !Matches(RegisteredRoutes[1].pattern, p);
    assert !Matches(RegisteredRoutes[2].pattern, p);
    assert !Matches(RegisteredRoutes[3].pattern, p);
    assert Matches(RegisteredRoutes[4].pattern, p);
    RoutedTo(RegisteredRoutes, cfg, chain, Request(p, ids), 4);
    RoutedTo(RegisteredRoutes, cfg, other, Request(p, otherIds), 4);
  }
}
